=== FILE: README.md ===
# Per-user rate limiting middleware, modelled in Dafny

The repository holds two versions of one HTTP middleware, `rateLimitMiddleware`. Each admits or refuses a request for a user id. The limit is a fixed per-user quota: at most `Limit` requests per window of `Duration`. The two versions differ in the store behind them.

- **Table variant** (`solution_db`): each admission is a row `(user_id, timestamp)` in a SQL table.
  - One transaction deletes every row older than `now - Duration` of the caller. This applies to every user's rows.
  - It then counts the caller's remaining rows.
  - It inserts a row when that count is under `Limit`.
  - Every failing database call rolls back and answers 500 with a code for that call.
- **Counter variant** (`solution_redis`): each user has a counter under the key `"ratelimit:" + user`.
  - The counter is read with GET. A missing key reads as 0.
  - The request is refused when the counter is at or above `Limit`.
  - Otherwise the counter is raised with INCR. EXPIRE sets a time-to-live of `Duration` only when the value read was 0.

Both versions first check the user id (400 when empty) and the policy (403 when none is configured). Neither program checks that a configured limit or window is positive, so the model accepts any integers for both. A negative configured number of seconds gives a negative window, and so does an overlong one that wraps (`Policy.OverlongWindowWraps`). Windows that are not positive weaken or disable limiting:
- **Table variant, negative window:** the cutoff falls after `now`. The sweep deletes every row up to `now`, of every user, and a caller under a positive limit is always admitted (`DbLimiter.NegativeWindowAdmitsAll`).
- **Table variant, zero window:** the cutoff is `now` itself, so rows stamped at `now` survive the sweep. Only requests at the same instant are limited, as `DbLimiter.DecideOnce` states for every window.
- **Counter variant, window under one second (negative ones included):** the EXPIRE timeout truncates to 0 or less, and EXPIRE deletes the key the first request created. Every request is then admitted (`RedisLimiter.SubSecondWindowNeverCounts`).

The lemmas about counts across calls (`DecideOnce`'s count clause, `DecideAddsNothingLater`, both `Burst` methods and the scenarios) therefore require a non-negative window in the table variant, or a window of at least a second in the counter variant.

The model is functional. Every request is a pure function from `(policies, user, now, store, fail)` to `(outcome, new store)`.
- `now` is an integer nanosecond clock.
- `fail` names the store call that fails if the request reaches it. Every error path is therefore a case of the same function.
- The table is a sequence of rows.
- The counter store is a map from key to `Entry(count, expiresAt)`. The GET, INCR and EXPIRE semantics are modelled as functions: an expired key reads as absent, INCR keeps an existing expiry, and EXPIRE with a non-positive timeout deletes the key.

Modules:
- `Wrappers`: `Option` and `Result`.
- `Policy`: `RateLimit`, and the seconds-to-`time.Duration` conversion with 64-bit wrap-around.
- `Admission`: error codes, statuses and wire strings, the outcome, and the front checks shared by both variants.
- `DbLimiter`: the table variant. It also holds the scoped-sweep correction described under Findings.
- `RedisLimiter`: the counter variant.
- `Scenarios`: the unit tests' request sequences.

Beyond the direct contracts, these properties are proved:
- **Table variant:** one call never lets a configured user exceed `Limit` rows. Other users' counts never grow.
- **Counter variant:**
  - a call touches only the caller's key;
  - counters stay at or below the limit as calls and time pass;
  - a fresh window starts once the expiry passes.
- **Counter variant, a consequence of the code as written:** a counter left without an expiry refuses its user forever once it reaches the limit. Two paths leave such a counter behind:
  - a failed EXPIRE on the first request of a window;
  - with no failure at all, a key that is live at GET and expires before INCR. INCR recreates it at 1, and EXPIRE is skipped because the value read was not 0.

## Model

| member | source | states |
|---|---|---|
| `Policy.LoadPolicies` | solution_db/main.go:62-65 | The policy map keeps every configured user and limit. Each window becomes exactly `ToDuration` of its configured seconds, which converts back to the same number of seconds whenever the 64-bit product does not overflow. |
| `Policy.ToDuration` | solution_redis/main.go:46-49 | `Duration *= time.Second` yields the 64-bit value congruent to `seconds * 10^9` modulo 2^64. That is exactly the product for every count of seconds within ±`MaxSeconds`. |
| `Policy.DurationSeconds` | solution_redis/main.go:100 | `int(d.Seconds())` is the whole number of seconds in `d`, truncated toward zero: it lies less than one second from `d`, on the side of zero. |
| `Policy.SecondsRoundTrip` | solution_redis/main.go:100 | `int(Duration.Seconds())` recovers the configured seconds for every window within ±`MaxSeconds`. |
| `Policy.OverlongWindowWraps` | solution_db/main.go:62-65 | A window of `MaxSeconds + 1` seconds wraps to a negative duration. |
| `Admission.FrontCheck` | solution_db/main.go:95-105 | The check answers 400 exactly when the user id is empty, and 403 exactly when it is non-empty and unconfigured. Otherwise it yields that user's policy. The counter variant's lines 62-72 are the same. |
| `Admission.ErrorCode.Status` | solution_db/main.go:97-152 | Each code is sent with 400, 403, 429 or 500. Only the three decisions about the caller (no id, no policy, over the limit) are below 500, and only the limit answers 429. The counter variant sends the same statuses at solution_redis/main.go:64-102. |
| `Admission.ErrorCode.Text` | solution_db/main.go:97-152 | Each code's body string is non-empty, and a client reading it back with `Admission.FromText` recovers exactly that code. The counter variant's strings are at solution_redis/main.go:64-102. |
| `Admission.Outcome.Status` | solution_db/main.go:158-159 | A request gets 200 iff it was admitted and reached the handler. An aborted one gets an error status of 400 or more. |
| `DbLimiter.Step.Code` | solution_db/main.go:113-153 | A failure of any database call is answered with a 500 code. |
| `DbLimiter.CodeInjective` | solution_db/main.go:113-153 | Two database calls answer their failures with the same code only if they are the same call. |
| `RedisLimiter.Step.Code` | solution_redis/main.go:74-104 | A failure of any store call is answered with a 500 code. |
| `RedisLimiter.CodeInjective` | solution_redis/main.go:74-104 | Two store calls answer their failures with the same code only if they are the same call. |
| `Admission.TextsDistinct` | solution_db/main.go:97-152 | Two error codes have the same response text only if they are the same code. This covers the table variant's strings at these lines and the counter variant's strings at solution_redis/main.go:64-102. |
| `DbLimiter.Sweep` | solution_db/main.go:119-120 | The sweep never adds rows. What it keeps and drops is stated by `DbLimiter.SweepContents`. |
| `DbLimiter.CountUser` | solution_db/main.go:127-129 | The count query. What it counts is stated by `DbLimiter.CountUserIsRowCount`. |
| `DbLimiter.SweepContents` | solution_db/main.go:119-120 | The sweep keeps every row, of any user, stamped at or after the cutoff, with its multiplicity. It drops every row stamped before the cutoff. |
| `DbLimiter.CountUserIsRowCount` | solution_db/main.go:127-129 | The count query returns the number of rows whose user is the caller. |
| `DbLimiter.CountAfterSweep` | solution_db/main.go:119-129 | After the sweep, the count query returns the caller's rows at or after the cutoff. |
| `DbLimiter.SweepKeepsLiveCount` | solution_db/main.go:110-120 | A sweep never changes a count over a window that starts at or after its cutoff. |
| `DbLimiter.SweepTwice` | solution_db/main.go:119-120 | Two sweeps equal one sweep with the later cutoff. |
| `DbLimiter.SweepIdempotent` | solution_db/main.go:119-120 | Sweeping twice with the same cutoff equals sweeping once. |
| `DbLimiter.Verdict` | solution_db/main.go:113-154 | The request is admitted iff no call fails and the count is under the limit. It gets 429 iff the count query succeeded and the count is at or above the limit. It gets a 500 iff a call fails that the request reaches, and the 500 carries that call's own code. |
| `DbLimiter.Admit` | solution_db/main.go:110-154 | The outcome is the verdict on the caller's rows inside the window. Every refusal and every failure leaves the table as it was. |
| `DbLimiter.Decide` | solution_db/main.go:93-156 | An empty id gives 400 and an unconfigured user gives 403, both with the table untouched. A configured user goes through the transaction under their own policy. |
| `DbLimiter.AdmitCommits` | solution_db/main.go:142-154 | An admission commits exactly the swept table plus one row `(user, now)`. |
| `DbLimiter.AdmittedCount` | solution_db/main.go:119-148 | After an admission, every user's row count equals their rows at or after the cutoff, plus one for the caller. |
| `DbLimiter.AdmittedLiveCount` | solution_db/main.go:110-148 | An admission adds its row to the caller's count in every window that contains `now`. It changes no other count over a window starting at or after the cutoff. |
| `DbLimiter.AdmitCounts` | solution_db/main.go:136-148 | A refused or failed call keeps every count. An admission leaves the caller with at most `Limit` rows. Other users' counts never grow. |
| `DbLimiter.DecidePreservesLimits` | solution_db/main.go:93-156 | If every configured user holds at most `Limit` rows before a call, the same holds after it. |
| `DbLimiter.DecideOnce` | solution_db/main.go:127-148 | With no failure, a configured user is admitted iff their live rows number under the limit, for every window. With a non-negative window, an admission adds exactly one live row. |
| `DbLimiter.NegativeWindowAdmitsAll` | solution_db/main.go:110-148 | Under a negative window and a positive limit, a request is admitted whatever rows up to `now` the table holds. |
| `DbLimiter.DecideAddsNothingLater` | solution_db/main.go:110-148 | A call at `now` leaves the caller's count in every window starting after `now` unchanged. |
| `DbLimiter.Burst` | solution_db/unit_test.go:34-40 | In `n` failure-free calls at one instant, call `i` is admitted iff the live count plus `i` is under the limit, and gets 429 otherwise. |
| `DbLimiter.SharedSweepDropsLiveRow` | solution_db/main.go:110-120 | A request by a one-second-window user deletes another user's row that is still inside that user's one-minute window. That user is then admitted twice within its minute. |
| `DbLimiter.SweepOwn` | solution_db/main.go:119-120 | The scoped sweep never adds rows. What it keeps and drops is stated by `DbLimiter.SweepOwnContents`. |
| `DbLimiter.SweepOwnContents` | solution_db/main.go:119-120 | The scoped sweep drops exactly the caller's rows before the cutoff and keeps every other row. |
| `DbLimiter.AdmitOwnSweep` | solution_db/main.go:110-154 | With the sweep scoped to the caller, every request gets the same outcome as the shared sweep gives on the same table. Every refusal and failure leaves the table as it was. |
| `DbLimiter.AdmitOwnSweepCommits` | solution_db/main.go:119-154 | Under the scoped sweep, an admission commits every row except the caller's rows before the cutoff, plus `(user, now)`. |
| `DbLimiter.DecideOwnSweep` | solution_db/main.go:93-156 | The middleware with the scoped sweep answers every request exactly as the shared-sweep middleware does on the same table. A refusal or failure changes nothing. |
| `DbLimiter.OwnSweepKeepsLiveRows` | solution_db/main.go:119-120 | Under the scoped sweep, no request deletes a row that still lies inside its owner's window. |
| `DbLimiter.OwnSweepRefusesSecondAdmission` | solution_db/main.go:136-139 | On the same two requests, the scoped sweep keeps the first user's row, and that user's second request within the minute gets 429. |
| `RedisLimiter.Key` | solution_redis/main.go:81 | A key is the prefix `ratelimit:` followed by the user id. |
| `RedisLimiter.KeyRoundTrip` | solution_redis/main.go:81 | Splitting off the prefix gives back the user, and every key of this shape is the key of the user it names. |
| `RedisLimiter.KeyInjective` | solution_redis/main.go:81 | Two users share a key iff they are the same user. |
| `RedisLimiter.Get` | solution_redis/main.go:82 | GET returns no value exactly when the key is missing or its expiry instant is before now. Otherwise it returns the stored counter. |
| `RedisLimiter.Count` | solution_redis/main.go:82-86 | A missing or expired key reads as 0 with no error. A live key reads as its counter. |
| `RedisLimiter.Incr` | solution_redis/main.go:93 | INCR yields the count read plus one. A live key keeps its expiry. A missing or expired key is created with no expiry. No other key changes. |
| `RedisLimiter.Expire` | solution_redis/main.go:100 | On a live key, EXPIRE sets the expiry `secs` seconds from now, or deletes the key when `secs` is at most 0. A missing key is left alone. No other key changes. |
| `RedisLimiter.AdmitAt` | solution_redis/main.go:74-105 | GET, INCR and EXPIRE each run at their own instant. The request is admitted iff GET and INCR succeed, the count read is under the limit, and EXPIRE succeeds when it runs. It gets 429 iff GET succeeded and the count read is at or above the limit. It gets a 500 iff a call fails that the request reaches, with that call's code. Every other abort leaves the store unchanged. |
| `RedisLimiter.Admit` | solution_redis/main.go:74-105 | The same decision with all three calls at one instant. It also states that an EXPIRE failure keeps the increment: the counter is left at 1. |
| `RedisLimiter.AdmitAtEntry` | solution_redis/main.go:93-105 | After INCR, the caller's key holds the counter as INCR leaves it at its own instant. When the value read was 0 and EXPIRE succeeds, the key gets an expiry `secs` seconds after EXPIRE's own instant, or is deleted when `secs` is at most 0. Every other key keeps its value. |
| `RedisLimiter.ExpiryLapseLeavesNoTtl` | solution_redis/main.go:82-105 | A counter live at GET and expired before INCR is admitted and recreated at 1 with no expiry, with no store failure. |
| `RedisLimiter.Decide` | solution_redis/main.go:60-109 | An empty id gives 400 and an unconfigured user gives 403, both with no counter touched. A configured user goes through the store calls under their own policy. |
| `RedisLimiter.DecideFrame` | solution_redis/main.go:81-105 | A request leaves every key except the caller's present or absent as before, with the same value. |
| `RedisLimiter.AdmittedEntry` | solution_redis/main.go:93-105 | An admission raises the counter by exactly one. A counter read as nonzero keeps its expiry. A counter read as 0 gets an expiry one window from now, or is deleted when the window is under a second. |
| `RedisLimiter.ZeroReadIsAbsent` | solution_redis/main.go:82-99 | In a store of counters at least 1, a counter reads 0 iff its key is missing or expired. |
| `RedisLimiter.DecidePreservesWellFormed` | solution_redis/main.go:93-105 | Every request keeps every stored counter at least 1. |
| `RedisLimiter.ExpiryFailureKeepsIncrement` | solution_redis/main.go:99-104 | When EXPIRE fails, the counter stays at 1 with no expiry. |
| `RedisLimiter.WithinLimitsLater` | solution_redis/main.go:82-91 | If every live counter is within its limit at one instant, this also holds at every later instant. |
| `RedisLimiter.AdmitKeepsOwnLimit` | solution_redis/main.go:88-97 | A caller's counter at or below the limit stays at or below it after a request. |
| `RedisLimiter.DecidePreservesLimits` | solution_redis/main.go:88-97 | If every configured user's live counter is within the limit, the same holds after any request. |
| `RedisLimiter.FreshWindow` | solution_redis/main.go:82-105 | A missing or expired key reads as 0 without an error. A failure-free request under a positive limit is then admitted and starts a window of one request with an expiry one window ahead. |
| `RedisLimiter.WindowCloses` | solution_redis/main.go:99-105 | Once the expiry of a fresh window passes, the counter reads 0 again. |
| `RedisLimiter.NoExpiryLocksOut` | solution_redis/main.go:88-91 | A counter with no expiry at or above the limit gets 429 at every instant and never changes. |
| `RedisLimiter.ExpiryFailureLocksOut` | solution_redis/main.go:93-104 | Under a limit of one, a failed EXPIRE on a user's first request leaves a counter of 1 with no expiry. That user then gets 429 at every later instant. |
| `RedisLimiter.DecideOnce` | solution_redis/main.go:82-105 | With no failure, a request is admitted iff the counter read is under the limit, for every window. With a window of at least a second, an admission raises that counter by exactly one. |
| `RedisLimiter.SubSecondWindowNeverCounts` | solution_redis/main.go:93-105 | Under a window shorter than a second and a positive limit, a request on a key that is not live is admitted, and it leaves no key behind, because the EXPIRE timeout truncates to 0 or less. |
| `RedisLimiter.Burst` | solution_redis/unit_test.go:31-39 | In `n` failure-free requests at one instant, request `i` is admitted iff the counter plus `i` is under the limit, and gets 429 otherwise. The counter ends at the limit or `n` higher. |
| `Scenarios.TableSixRequests` | solution_db/unit_test.go:31-40 | With a limit of five and no rows for `user_a`, six requests answer 200 five times and then 429. |
| `Scenarios.CounterSixRequests` | solution_redis/unit_test.go:30-39 | With a limit of five and the key deleted, six requests answer 200 five times and then 429. |
| `Scenarios.UnconfiguredUserRefused` | solution_db/main.go:101-104 | `user_b` has no policy, so both variants answer 403 and leave their stores unchanged, whatever the injected failure. |

## Left out

- HTTP plumbing: gin routing, `c.Query`, the JSON bodies and `apiHandler`. A request is modelled by its user id and the result by an `Outcome`, which carries a status and an error code. `c.Next()` is commented out in the counter variant. An admitted request still reaches the handler and is modelled as `Allowed`, with status 200.
- Start-up: `init`, `.env`, the viper config file, `CONFIG_PATH`, `sql.Open` and `createTable`. These are I/O. The policy map is an input, built by `Policy.LoadPolicies` from the configured seconds.
- The global mutex of the table variant and the race between concurrent requests in the counter variant. Requests are modelled one at a time.
- `RedisLimiter.Admit`: runs GET, INCR and EXPIRE at one instant, and the lemmas about the counter variant are stated for it. `RedisLimiter.AdmitAt` gives each call its own instant. `RedisLimiter.ExpiryLapseLeavesNoTtl` shows the one case where that matters: the key expires between GET and INCR.
- `RedisLimiter.AdmittedEntry`: "a counter read as nonzero keeps its expiry" holds only when INCR runs at the instant of GET. Otherwise the lapse above can drop the expiry.
- Real clocks and the Postgres and Redis wire protocols. `now` is a parameter in nanoseconds. Store failures are the `fail` parameter.
- Postgres `TIMESTAMP` stores microseconds without a time zone. The model compares nanosecond stamps exactly. The driver sends `now` and the cutoff with their zone offset (solution_db/main.go:120, 143), and the column drops it, so stored stamps are local wall-clock times that repeat or skip an hour when daylight saving time changes. The integer clock assumes a local clock that never jumps.
- Redis keeps expiries in milliseconds. The model keeps nanoseconds, which agrees when `now` falls on a whole millisecond.
- `DbLimiter.Admit` computes `now - duration` in unbounded integers. It does not model `time.Time.Add` with the negation of a duration of `MinInt64`, which Go leaves as `MinInt64`.
- `Policy.DurationSeconds` truncates toward zero exactly. `Duration.Seconds()` goes through a float64, which differs only for durations that are not whole seconds. Such durations arise only from a wrapped configuration.
- A counter that GET returns as a non-integer, which would make `redis.Int` fail. Only other clients could write one, so values are integers.
- INCR overflow at the largest 64-bit value. INCR runs only when the counter is below `Limit`, which is a Go `int`, so INCR never reaches the overflow.
- EXPIRE's error for a timeout too large. The timeout is at most `MaxSeconds`, which Redis accepts.
- `Scenarios.TableSixRequests`: requires that `user_a` has no rows, which is what the unit test intends. The test deletes them inside a transaction that it rolls back and never commits, so the middleware's own transactions do not see that delete.
- `DbLimiter.Burst`, `RedisLimiter.Burst` and the scenarios send all requests at one instant. The unit tests send them one after another, at successive instants.
- The test-only `ResponseRecorder` adapter and the end-to-end tests. They repeat the unit-test scenario.

## Findings

| source | as written | input that shows it | evidently intended | confidence | as-written member | corrected member |
|---|---|---|---|---|---|---|
| solution_db/main.go:119-120 | The sweep deletes every user's rows older than the caller's cutoff, `now - Duration` of the caller's policy. | `user_a` allows 1 per 60 s and `user_b` 1 per 1 s. `user_a` is admitted at 0 s. `user_b` at 2 s deletes that row, and `user_a` is admitted again at 3 s. | Each user's rows expire by that user's own window, so `user_a` gets 429 at 3 s. | medium, not executed | `DbLimiter.SharedSweepDropsLiveRow` | `DbLimiter.OwnSweepKeepsLiveRows` |

The finding shows only when users have different windows. With one window for all users, the shared sweep deletes only rows that are outside every window. `DbLimiter.Decide` models the code as written, and the other table-variant properties are stated about it. `DbLimiter.DecideOwnSweep` is the corrected middleware. It scopes the delete to the caller, as in `DELETE ... WHERE user_id = $1 AND timestamp < $2`. It is proved to give the same outcome as `Decide` on every table, and never to delete a row inside its owner's window.

=== FILE: admission.dfy ===
/** What both middlewares share: the error codes with their HTTP statuses,
    the outcome of one request, and the checks made before any store is
    touched. */
module Admission {
  import opened Wrappers
  import opened Policy

  /** Every `error` value the middlewares put in a response body. */
  datatype ErrorCode =
    | UserIdRequired
    | NotConfigRateLimitForThisUser
    | RateLimitExceeded
      // relational-table variant
    | FailedToBeginTransaction
    | FailedToCleanUpData
    | FailedToCountApiCall
    | FailedToRecordApiCall
    | FailedToCommitTransaction
      // counter-with-expiry variant
    | RedisConnectionFailed
    | GetRateLimitCountingFailed
    | IncreaseRateLimitFailed
    | SetRateLimitExpirationFailed
  {
    /** The HTTP status the code is sent with: a client error for the three
        decisions about the caller, 500 for every failure of a store. */
    function Status(): (st: int)
      ensures st == 400 || st == 403 || st == 429 || st == 500
      ensures st < 500 <==> UserIdRequired? || NotConfigRateLimitForThisUser? || RateLimitExceeded?
      ensures st == 429 <==> RateLimitExceeded?
    {
      match this
      case UserIdRequired => 400
      case NotConfigRateLimitForThisUser => 403
      case RateLimitExceeded => 429
      case _ => 500
    }

    /** A failure of the backing store rather than a decision about the user. */
    predicate IsStoreFailure() {
      Status() == 500
    }

    /** The string written in the response body; a client reading it back
        recovers the code. */
    function Text(): (t: string)
      ensures 0 < |t|
      ensures FromText(t) == Some(this)
    {
      match this
      case UserIdRequired => "USER_ID_REQUIRED"
      case NotConfigRateLimitForThisUser => "NOT_CONFIG_RATE_LIMIT_FOR_THIS_USER"
      case RateLimitExceeded => "RATE_LIMIT_EXCEEDED"
      case FailedToBeginTransaction => "FAILED_TO_BEGIN_TRANSACTION"
      case FailedToCleanUpData => "FAILED_TO_CLEAN_UP_DATA"
      case FailedToCountApiCall => "FAILED_TO_COUNT_API_CALL"
      case FailedToRecordApiCall => "FAILED_TO_RECORD_API_CALL"
      case FailedToCommitTransaction => "FAILED_TO_COMMIT_TRANSACTION"
      case RedisConnectionFailed => "REDIS_CONNECTION_FAILED"
      case GetRateLimitCountingFailed => "GET_RATE_LIMIT_COUNTING_FAILED"
      case IncreaseRateLimitFailed => "INCREASE_RATE_LIMIT_FAILED"
      case SetRateLimitExpirationFailed => "SET_RATE_LIMIT_EXPIRATION_FAILED"
    }
  }

  /** A client's reading of a response body: the code whose text it is, or
      nothing for any other string. */
  function FromText(t: string): Option<ErrorCode> {
    if t == "USER_ID_REQUIRED" then Some(UserIdRequired)
    else if t == "NOT_CONFIG_RATE_LIMIT_FOR_THIS_USER" then Some(NotConfigRateLimitForThisUser)
    else if t == "RATE_LIMIT_EXCEEDED" then Some(RateLimitExceeded)
    else if t == "FAILED_TO_BEGIN_TRANSACTION" then Some(FailedToBeginTransaction)
    else if t == "FAILED_TO_CLEAN_UP_DATA" then Some(FailedToCleanUpData)
    else if t == "FAILED_TO_COUNT_API_CALL" then Some(FailedToCountApiCall)
    else if t == "FAILED_TO_RECORD_API_CALL" then Some(FailedToRecordApiCall)
    else if t == "FAILED_TO_COMMIT_TRANSACTION" then Some(FailedToCommitTransaction)
    else if t == "REDIS_CONNECTION_FAILED" then Some(RedisConnectionFailed)
    else if t == "GET_RATE_LIMIT_COUNTING_FAILED" then Some(GetRateLimitCountingFailed)
    else if t == "INCREASE_RATE_LIMIT_FAILED" then Some(IncreaseRateLimitFailed)
    else if t == "SET_RATE_LIMIT_EXPIRATION_FAILED" then Some(SetRateLimitExpirationFailed)
    else None
  }

  /** The result of one request: handed on to the API handler, or aborted
      with an error code. */
  datatype Outcome = Allowed | Aborted(code: ErrorCode) {

    /** The HTTP status the client sees; an admitted request gets the API
        handler's 200. */
    function Status(): (st: int)
      ensures st == 200 <==> Allowed?
      ensures Aborted? ==> 400 <= st < 600
    {
      if Allowed? then 200 else code.Status()
    }
  }

  /** The user-id and policy checks both middlewares make first. On success
      the caller's policy is returned. */
  function FrontCheck(policies: map<string, RateLimit>, user: string): (r: Result<RateLimit, ErrorCode>)
    ensures r.Failure? ==> r.error.Status() == 400 || r.error.Status() == 403
    ensures r.Failure? && r.error.Status() == 400 <==> user == ""
    ensures r.Failure? && r.error.Status() == 403 <==> user != "" && user !in policies
    ensures r.Success? ==> user in policies && r.value == policies[user]
  {
    if user == "" then Failure(UserIdRequired)
    else if user !in policies then Failure(NotConfigRateLimitForThisUser)
    else Success(policies[user])
  }

  /** Distinct codes are told apart by their text, so a client can always
      tell a store failure from throttling. */
  lemma TextsDistinct(a: ErrorCode, b: ErrorCode)
    ensures a.Text() == b.Text() <==> a == b
  {
  }
}

=== FILE: db_limiter.dfy ===
/** The transactional variant: one database transaction per request sweeps
    old rows out of the `api_calls` table, counts the caller's rows and, when
    the caller is under the limit, appends a row for this request. */
module DbLimiter {
  import opened Wrappers
  import opened Policy
  import opened Admission

  /** One row of `api_calls`: who was admitted, and when (nanoseconds). */
  datatype Row = Row(user: string, at: int)

  /** The table's rows in insertion order. The serial `id` column only tells
      equal rows apart, which a sequence does by position. */
  type Table = seq<Row>

  /** The database calls of one request that can fail, in the order they run. */
  datatype Step = Begin | CleanUp | Count | Record | Commit {

    function Index(): nat {
      match this
      case Begin => 0
      case CleanUp => 1
      case Count => 2
      case Record => 3
      case Commit => 4
    }

    /** The code a failure of this step is reported with. */
    function Code(): (c: ErrorCode)
      ensures c.IsStoreFailure()
    {
      match this
      case Begin => FailedToBeginTransaction
      case CleanUp => FailedToCleanUpData
      case Count => FailedToCountApiCall
      case Record => FailedToRecordApiCall
      case Commit => FailedToCommitTransaction
    }
  }

  /** Each failing step answers with a code of its own, so the response
      names the call that failed. */
  lemma CodeInjective(a: Step, b: Step)
    ensures a.Code() == b.Code() <==> a == b
  {
  }

  /** Step `s` ran without failing when the injected failure, if any, is a
      later step. */
  predicate Passes(fail: Option<Step>, s: Step) {
    fail.None? || fail.value.Index() > s.Index()
  }

  /** `DELETE FROM api_calls WHERE timestamp < cutoff`, for every user. */
  function Sweep(t: Table, cutoff: int): (r: Table)
    ensures |r| <= |t|
  {
    if |t| == 0 then []
    else
      var last := t[|t| - 1];
      var rest := Sweep(t[..|t| - 1], cutoff);
      if last.at < cutoff then rest else rest + [last]
  }

  /** The sweep keeps every row stamped at or after the cutoff, as often as
      it occurs, whoever it belongs to, and drops every row stamped before. */
  lemma {:induction false} SweepContents(t: Table, cutoff: int)
    ensures forall x :: multiset(Sweep(t, cutoff))[x] == if x.at < cutoff then 0 else multiset(t)[x]
  {
    if |t| > 0 {
      var last := t[|t| - 1];
      assert t == t[..|t| - 1] + [last];
      SweepContents(t[..|t| - 1], cutoff);
    }
  }

  /** `SELECT COUNT(*) FROM api_calls WHERE user_id = u`. */
  function CountUser(t: Table, u: string): nat {
    if |t| == 0 then 0
    else CountUser(t[..|t| - 1], u) + (if t[|t| - 1].user == u then 1 else 0)
  }

  /** The rows of `u` stamped at or after `cutoff`: the admissions of `u`
      inside a window that starts at `cutoff`. */
  function CountLive(t: Table, u: string, cutoff: int): nat {
    if |t| == 0 then 0
    else CountLive(t[..|t| - 1], u, cutoff) + (if t[|t| - 1].user == u && t[|t| - 1].at >= cutoff then 1 else 0)
  }

  /** The indices of the rows of `u`. */
  function RowsOf(t: Table, u: string): set<int> {
    set i | 0 <= i < |t| && t[i].user == u
  }

  /** The count query counts exactly the rows whose user is `u`. */
  lemma {:induction false} CountUserIsRowCount(t: Table, u: string)
    ensures CountUser(t, u) == |RowsOf(t, u)|
  {
    if |t| > 0 {
      var n := |t| - 1;
      CountUserIsRowCount(t[..n], u);
      assert RowsOf(t[..n], u) == set i | 0 <= i < n && t[i].user == u;
      if t[n].user == u {
        assert RowsOf(t, u) == RowsOf(t[..n], u) + {n};
      } else {
        assert RowsOf(t, u) == RowsOf(t[..n], u);
      }
    }
  }

  lemma {:induction false} CountLiveAtMostCount(t: Table, u: string, cutoff: int)
    ensures CountLive(t, u, cutoff) <= CountUser(t, u)
  {
    if |t| > 0 {
      CountLiveAtMostCount(t[..|t| - 1], u, cutoff);
    }
  }

  /** Appending one row adds one to its user's counts and nothing to others'. */
  lemma AppendCounts(t: Table, x: Row, u: string, cutoff: int)
    ensures CountUser(t + [x], u) == CountUser(t, u) + (if x.user == u then 1 else 0)
    ensures CountLive(t + [x], u, cutoff) == CountLive(t, u, cutoff) + (if x.user == u && x.at >= cutoff then 1 else 0)
  {
    assert (t + [x])[..|t|] == t;
  }

  /** After the sweep with `cutoff`, counting the rows of `u` counts exactly
      the rows of `u` at or after `cutoff`, whichever users the sweep hit. */
  lemma {:induction false} CountAfterSweep(t: Table, u: string, cutoff: int)
    ensures CountUser(Sweep(t, cutoff), u) == CountLive(t, u, cutoff)
  {
    if |t| > 0 {
      var last := t[|t| - 1];
      CountAfterSweep(t[..|t| - 1], u, cutoff);
      if last.at >= cutoff {
        AppendCounts(Sweep(t[..|t| - 1], cutoff), last, u, cutoff);
      }
    }
  }

  /** The sweep never changes a live count whose window starts at or after
      its cutoff: housekeeping does not affect admission decisions. */
  lemma {:induction false} SweepKeepsLiveCount(t: Table, u: string, cutoff: int, from: int)
    requires cutoff <= from
    ensures CountLive(Sweep(t, cutoff), u, from) == CountLive(t, u, from)
  {
    if |t| > 0 {
      var last := t[|t| - 1];
      SweepKeepsLiveCount(t[..|t| - 1], u, cutoff, from);
      if last.at >= cutoff {
        AppendCounts(Sweep(t[..|t| - 1], cutoff), last, u, from);
      }
    }
  }

  /** Two sweeps amount to one sweep with the later cutoff. */
  lemma {:induction false} SweepTwice(t: Table, a: int, b: int)
    ensures Sweep(Sweep(t, a), b) == Sweep(t, if a < b then b else a)
  {
    if |t| > 0 {
      var last := t[|t| - 1];
      var rest := Sweep(t[..|t| - 1], a);
      SweepTwice(t[..|t| - 1], a, b);
      if last.at >= a {
        assert (rest + [last])[..|rest|] == rest;
      }
    }
  }

  /** Sweeping again with the same cutoff changes nothing. */
  lemma SweepIdempotent(t: Table, cutoff: int)
    ensures Sweep(Sweep(t, cutoff), cutoff) == Sweep(t, cutoff)
  {
    SweepTwice(t, cutoff, cutoff);
  }

  /** The outcome of one transaction once the user has passed the front
      checks: `count` is what the count query returns, `fail` the database
      call that fails if it is reached. Only an admission commits. */
  function Verdict(p: RateLimit, count: int, fail: Option<Step>): (o: Outcome)
    ensures o == Allowed <==> fail.None? && count < p.limit
    ensures o == Aborted(RateLimitExceeded) <==> Passes(fail, Count) && count >= p.limit
    ensures o.Aborted? && o.code.IsStoreFailure() <==> fail.Some? && (Passes(fail, Count) ==> count < p.limit)
    ensures o.Aborted? && o.code.IsStoreFailure() ==> fail.Some? && o.code == fail.value.Code()
    ensures o.Aborted? ==> o.code == RateLimitExceeded || o.code.IsStoreFailure()
  {
    match fail
    case Some(Begin) => Aborted(FailedToBeginTransaction)
    case Some(CleanUp) => Aborted(FailedToCleanUpData)
    case Some(Count) => Aborted(FailedToCountApiCall)
    case _ =>
      if count >= p.limit then Aborted(RateLimitExceeded)
      else
        match fail
        case Some(Record) => Aborted(FailedToRecordApiCall)
        case Some(Commit) => Aborted(FailedToCommitTransaction)
        case _ => Allowed
  }

  /** One transaction, for a caller who passed the front checks with
      policy `p`: begin, sweep with the caller's cutoff, count, then either
      roll back or insert `(user, now)` and commit. `fail` names the database
      call that fails if it is reached. */
  function Admit(p: RateLimit, user: string, now: int, t: Table, fail: Option<Step>): (r: (Outcome, Table))
    ensures r.0 == Verdict(p, CountLive(t, user, now - p.duration), fail)
    ensures r.0.Aborted? ==> r.1 == t
  {
    var cutoff := now - p.duration;
    var swept := Sweep(t, cutoff);
    var o := Verdict(p, CountUser(swept, user), fail);
    CountAfterSweep(t, user, cutoff);
    if o == Allowed then (o, swept + [Row(user, now)]) else (o, t)
  }

  /** One request through the middleware: the front checks, then the
      transaction under the caller's policy. */
  function Decide(policies: map<string, RateLimit>, user: string, now: int, t: Table, fail: Option<Step>): (r: (Outcome, Table))
    ensures user == "" ==> r == (Aborted(UserIdRequired), t)
    ensures user != "" && user !in policies ==> r == (Aborted(NotConfigRateLimitForThisUser), t)
    ensures user != "" && user in policies ==> r == Admit(policies[user], user, now, t, fail)
  {
    match FrontCheck(policies, user)
    case Failure(e) => (Aborted(e), t)
    case Success(p) => Admit(p, user, now, t, fail)
  }

  /** The table an admission commits: the swept table with the new row
      appended. */
  lemma AdmitTable(p: RateLimit, user: string, now: int, t: Table, fail: Option<Step>)
    requires Admit(p, user, now, t, fail).0 == Allowed
    ensures Admit(p, user, now, t, fail).1 == Sweep(t, now - p.duration) + [Row(user, now)]
  {
  }

  /** An admission commits exactly the rows of `t` at or after the cutoff,
      of every user, plus one row `(user, now)`. */
  lemma AdmitCommits(p: RateLimit, user: string, now: int, t: Table, fail: Option<Step>)
    requires Admit(p, user, now, t, fail).0 == Allowed
    ensures forall x :: multiset(Admit(p, user, now, t, fail).1)[x] ==
              (if x.at < now - p.duration then 0 else multiset(t)[x]) + (if x == Row(user, now) then 1 else 0)
  {
    var swept := Sweep(t, now - p.duration);
    var row := Row(user, now);
    AdmitTable(p, user, now, t, fail);
    SweepContents(t, now - p.duration);
    assert multiset(swept + [row]) == multiset(swept) + multiset{row};
  }

  /** An admission adds one row to the caller's count and otherwise leaves
      exactly the rows at or after the cutoff. */
  lemma AdmittedCount(p: RateLimit, user: string, now: int, t: Table, fail: Option<Step>, v: string)
    requires Admit(p, user, now, t, fail).0 == Allowed
    ensures CountUser(Admit(p, user, now, t, fail).1, v) ==
              CountLive(t, v, now - p.duration) + (if v == user then 1 else 0)
  {
    var swept := Sweep(t, now - p.duration);
    AdmitTable(p, user, now, t, fail);
    AppendCounts(swept, Row(user, now), v, 0);
    CountAfterSweep(t, v, now - p.duration);
  }

  /** An admission adds its row to the caller's live count in every window
      that starts between the cutoff and `now`, and changes no other live
      count whose window starts at or after the cutoff. */
  lemma AdmittedLiveCount(p: RateLimit, user: string, now: int, t: Table, fail: Option<Step>, v: string, from: int)
    requires Admit(p, user, now, t, fail).0 == Allowed
    requires now - p.duration <= from
    ensures CountLive(Admit(p, user, now, t, fail).1, v, from) ==
              CountLive(t, v, from) + (if v == user && now >= from then 1 else 0)
  {
    var swept := Sweep(t, now - p.duration);
    AdmitTable(p, user, now, t, fail);
    AppendCounts(swept, Row(user, now), v, from);
    SweepKeepsLiveCount(t, v, now - p.duration, from);
  }

  /** A call changes the caller's row count only by admitting, which keeps it
      within the limit, and can only lower every other user's count. */
  lemma {:induction false} AdmitCounts(p: RateLimit, user: string, now: int, t: Table, fail: Option<Step>, v: string)
    ensures Admit(p, user, now, t, fail).0.Aborted? ==> CountUser(Admit(p, user, now, t, fail).1, v) == CountUser(t, v)
    ensures Admit(p, user, now, t, fail).0 == Allowed && v == user ==> CountUser(Admit(p, user, now, t, fail).1, v) <= p.limit
    ensures v != user ==> CountUser(Admit(p, user, now, t, fail).1, v) <= CountUser(t, v)
  {
    if Admit(p, user, now, t, fail).0 == Allowed {
      AdmittedCount(p, user, now, t, fail, v);
      CountLiveAtMostCount(t, v, now - p.duration);
    }
  }

  /** Every configured user holds at most `limit` rows. */
  ghost predicate WithinLimits(policies: map<string, RateLimit>, t: Table) {
    forall u :: u in policies ==> CountUser(t, u) <= policies[u].limit
  }

  /** Every call keeps every configured user within their limit. */
  lemma DecidePreservesLimits(policies: map<string, RateLimit>, user: string, now: int, t: Table, fail: Option<Step>)
    requires WithinLimits(policies, t)
    ensures WithinLimits(policies, Decide(policies, user, now, t, fail).1)
  {
    var r := Decide(policies, user, now, t, fail);
    if user != "" && user in policies {
      forall u | u in policies
        ensures CountUser(r.1, u) <= policies[u].limit
      {
        AdmitCounts(policies[user], user, now, t, fail, u);
      }
    }
  }

  /** One call by a configured user with no failure: admitted exactly when
      the user has fewer than `limit` live rows, and an admission adds one
      live row. */
  lemma DecideOnce(policies: map<string, RateLimit>, user: string, now: int, t: Table)
    requires user != "" && user in policies
    ensures var live := CountLive(t, user, now - policies[user].duration);
            Decide(policies, user, now, t, None).0 == (if live < policies[user].limit then Allowed else Aborted(RateLimitExceeded))
    ensures var live := CountLive(t, user, now - policies[user].duration);
            var r := Decide(policies, user, now, t, None);
            policies[user].duration >= 0 ==>
              CountLive(r.1, user, now - policies[user].duration) == live + (if r.0 == Allowed then 1 else 0)
  {
    var cutoff := now - policies[user].duration;
    var r := Decide(policies, user, now, t, None);
    assert r == Admit(policies[user], user, now, t, None);
    if r.0 == Allowed {
      AdmittedLiveCount(policies[user], user, now, t, None, user, cutoff);
    }
  }

  /** No row of a table stamped entirely before `cutoff` is live from it. */
  lemma {:induction false} NothingLiveAfter(t: Table, u: string, cutoff: int)
    requires forall i :: 0 <= i < |t| ==> t[i].at < cutoff
    ensures CountLive(t, u, cutoff) == 0
  {
    if |t| > 0 {
      NothingLiveAfter(t[..|t| - 1], u, cutoff);
    }
  }

  /** A negative window puts the cutoff after `now`: the sweep then removes
      every row up to `now`, of every user, and a caller under a positive
      limit is admitted however many rows it had. */
  lemma NegativeWindowAdmitsAll(policies: map<string, RateLimit>, user: string, now: int, t: Table)
    requires user != "" && user in policies
    requires policies[user].duration < 0 && policies[user].limit > 0
    requires forall i :: 0 <= i < |t| ==> t[i].at <= now
    ensures Decide(policies, user, now, t, None).0 == Allowed
  {
    NothingLiveAfter(t, user, now - policies[user].duration);
    DecideOnce(policies, user, now, t);
  }

  /** One call by `user` at `now` leaves `user`'s count in a window starting
      after `now` as it was. */
  lemma DecideAddsNothingLater(policies: map<string, RateLimit>, user: string, now: int, t: Table, from: int)
    requires user in policies && policies[user].duration >= 0 && now < from
    ensures CountLive(Decide(policies, user, now, t, None).1, user, from) == CountLive(t, user, from)
  {
    var r := Decide(policies, user, now, t, None);
    if r.0 == Allowed {
      assert user != "" && r == Admit(policies[user], user, now, t, None);
      AdmittedLiveCount(policies[user], user, now, t, None, user, from);
    }
  }

  /** One step of `Burst`: the outcome and the caller's count in the current
      window, and its count in every later window, after one more call. */
  lemma BurstStep(policies: map<string, RateLimit>, user: string, now: int, t: Table)
    requires user != "" && user in policies && policies[user].duration >= 0
    ensures var live := CountLive(t, user, now - policies[user].duration);
            var r := Decide(policies, user, now, t, None);
            && r.0 == (if live < policies[user].limit then Allowed else Aborted(RateLimitExceeded))
            && CountLive(r.1, user, now - policies[user].duration) == live + (if r.0 == Allowed then 1 else 0)
            && forall from :: now < from ==> CountLive(r.1, user, from) == CountLive(t, user, from)
  {
    DecideOnce(policies, user, now, t);
    forall from | now < from
      ensures CountLive(Decide(policies, user, now, t, None).1, user, from) == CountLive(t, user, from)
    {
      DecideAddsNothingLater(policies, user, now, t, from);
    }
  }

  /** `n` requests by a configured `user` at the same instant, none hitting a
      database failure. Within one window they are admitted while the caller
      has fewer than `limit` live rows and refused with 429 from then on; the
      caller's rows in any later window are untouched. */
  method Burst(policies: map<string, RateLimit>, user: string, now: int, t: Table, n: nat)
      returns (outcomes: seq<Outcome>, after: Table)
    requires user != "" && user in policies && policies[user].duration >= 0
    ensures |outcomes| == n
    ensures forall i :: 0 <= i < n ==>
              outcomes[i] == if CountLive(t, user, now - policies[user].duration) + i < policies[user].limit
                             then Allowed else Aborted(RateLimitExceeded)
    ensures forall from :: now < from ==> CountLive(after, user, from) == CountLive(t, user, from)
  {
    var limit := policies[user].limit;
    var cutoff := now - policies[user].duration;
    var live := CountLive(t, user, cutoff);
    outcomes, after := [], t;
    var k := 0;
    while k < n
      invariant k <= n && |outcomes| == k
      invariant forall i :: 0 <= i < k ==>
                  outcomes[i] == if live + i < limit then Allowed else Aborted(RateLimitExceeded)
      invariant live >= limit ==> CountLive(after, user, cutoff) == live
      invariant live < limit ==> CountLive(after, user, cutoff) == if live + k <= limit then live + k else limit
      invariant forall from :: now < from ==> CountLive(after, user, from) == CountLive(t, user, from)
    {
      var r := Decide(policies, user, now, after, None);
      BurstStep(policies, user, now, after);
      outcomes, after := outcomes + [r.0], r.1;
      k := k + 1;
    }
  }

  /** The sweep scoped to one user:
      `DELETE FROM api_calls WHERE user_id = u AND timestamp < cutoff`. */
  function SweepOwn(t: Table, u: string, cutoff: int): (r: Table)
    ensures |r| <= |t|
  {
    if |t| == 0 then []
    else
      var last := t[|t| - 1];
      var rest := SweepOwn(t[..|t| - 1], u, cutoff);
      if last.user == u && last.at < cutoff then rest else rest + [last]
  }

  /** The scoped sweep drops exactly the rows of `u` stamped before the
      cutoff and keeps every other row, as often as it occurs. */
  lemma {:induction false} SweepOwnContents(t: Table, u: string, cutoff: int)
    ensures forall x :: multiset(SweepOwn(t, u, cutoff))[x] ==
              if x.user == u && x.at < cutoff then 0 else multiset(t)[x]
  {
    if |t| > 0 {
      var last := t[|t| - 1];
      assert t == t[..|t| - 1] + [last];
      SweepOwnContents(t[..|t| - 1], u, cutoff);
    }
  }

  lemma {:induction false} CountAfterOwnSweep(t: Table, u: string, cutoff: int)
    ensures CountUser(SweepOwn(t, u, cutoff), u) == CountLive(t, u, cutoff)
  {
    if |t| > 0 {
      var last := t[|t| - 1];
      CountAfterOwnSweep(t[..|t| - 1], u, cutoff);
      if !(last.user == u && last.at < cutoff) {
        AppendCounts(SweepOwn(t[..|t| - 1], u, cutoff), last, u, cutoff);
      }
    }
  }

  /** The transaction with the sweep scoped to the caller: the same decision
      as `Admit` on every input, but only the caller's own expired rows are
      deleted. */
  function AdmitOwnSweep(p: RateLimit, user: string, now: int, t: Table, fail: Option<Step>): (r: (Outcome, Table))
    ensures r.0 == Admit(p, user, now, t, fail).0
    ensures r.0.Aborted? ==> r.1 == t
  {
    var cutoff := now - p.duration;
    var swept := SweepOwn(t, user, cutoff);
    var o := Verdict(p, CountUser(swept, user), fail);
    CountAfterOwnSweep(t, user, cutoff);
    assert o == Admit(p, user, now, t, fail).0;
    if o == Allowed then (o, swept + [Row(user, now)]) else (o, t)
  }

  /** The table a scoped admission commits: the scoped sweep with the new
      row appended. */
  lemma AdmitOwnSweepTable(p: RateLimit, user: string, now: int, t: Table, fail: Option<Step>)
    requires AdmitOwnSweep(p, user, now, t, fail).0 == Allowed
    ensures AdmitOwnSweep(p, user, now, t, fail).1 == SweepOwn(t, user, now - p.duration) + [Row(user, now)]
  {
  }

  /** Under the scoped sweep an admission commits every row of `t` except the
      caller's rows before the cutoff, plus one row `(user, now)`. */
  lemma AdmitOwnSweepCommits(p: RateLimit, user: string, now: int, t: Table, fail: Option<Step>)
    requires AdmitOwnSweep(p, user, now, t, fail).0 == Allowed
    ensures forall x :: multiset(AdmitOwnSweep(p, user, now, t, fail).1)[x] ==
              (if x.user == user && x.at < now - p.duration then 0 else multiset(t)[x]) +
              (if x == Row(user, now) then 1 else 0)
  {
    var swept := SweepOwn(t, user, now - p.duration);
    var row := Row(user, now);
    AdmitOwnSweepTable(p, user, now, t, fail);
    SweepOwnContents(t, user, now - p.duration);
    assert multiset(swept + [row]) == multiset(swept) + multiset{row};
  }

  /** The middleware with the scoped sweep. */
  function DecideOwnSweep(policies: map<string, RateLimit>, user: string, now: int, t: Table, fail: Option<Step>): (r: (Outcome, Table))
    ensures r.0 == Decide(policies, user, now, t, fail).0
    ensures r.0.Aborted? ==> r.1 == t
  {
    match FrontCheck(policies, user)
    case Failure(e) => (Aborted(e), t)
    case Success(p) => AdmitOwnSweep(p, user, now, t, fail)
  }

  /** No row still inside its owner's window at `now` is lost between
      `before` and `after`. */
  ghost predicate KeepsLiveRows(policies: map<string, RateLimit>, before: Table, after: Table, now: int) {
    forall x: Row :: x.user in policies && x.at >= now - policies[x.user].duration ==>
      multiset(before)[x] <= multiset(after)[x]
  }

  /** With the scoped sweep, a request never deletes a row that still counts
      against its owner's limit. */
  lemma OwnSweepKeepsLiveRows(policies: map<string, RateLimit>, user: string, now: int, t: Table, fail: Option<Step>)
    ensures KeepsLiveRows(policies, t, DecideOwnSweep(policies, user, now, t, fail).1, now)
  {
    var r := DecideOwnSweep(policies, user, now, t, fail);
    if r.0 == Allowed {
      assert user != "" && user in policies && r == AdmitOwnSweep(policies[user], user, now, t, fail);
      AdmitOwnSweepCommits(policies[user], user, now, t, fail);
    }
  }

  /** The two policies of the cross-user example: one admission per minute
      for `user_a`, one per second for `user_b`. */
  function MixedWindows(): map<string, RateLimit> {
    map["user_a" := RateLimit(1, 60 * NanosPerSecond), "user_b" := RateLimit(1, NanosPerSecond)]
  }

  lemma UsersDistinct()
    ensures "user_a" != "user_b"
  {
    assert "user_a"[5] != "user_b"[5];
  }

  /** Both users of the example pass the front checks with their own policy. */
  lemma MixedWindowsConfigured(user: string, now: int, t: Table, fail: Option<Step>)
    requires user == "user_a" || user == "user_b"
    ensures Decide(MixedWindows(), user, now, t, fail) == Admit(MixedWindows()[user], user, now, t, fail)
    ensures DecideOwnSweep(MixedWindows(), user, now, t, fail) == AdmitOwnSweep(MixedWindows()[user], user, now, t, fail)
  {
  }

  /** `user_b` at 2 s under the shared sweep: the cutoff of 1 s removes
      `user_a`'s row from 0 s. */
  lemma SharedSweepFirstCall()
    ensures Admit(RateLimit(1, NanosPerSecond), "user_b", 2 * NanosPerSecond, [Row("user_a", 0)], None) ==
              (Allowed, [Row("user_b", 2 * NanosPerSecond)])
  {
    var a := Row("user_a", 0);
    var p := RateLimit(1, NanosPerSecond);
    UsersDistinct();
    var r := Admit(p, "user_b", 2 * NanosPerSecond, [a], None);
    assert [a][..0] == [];
    assert Sweep([a], NanosPerSecond) == [];
    assert CountLive([a], "user_b", NanosPerSecond) == 0;
    assert r.0 == Verdict(p, 0, None) == Allowed;
    assert r.1 == [Row("user_b", 2 * NanosPerSecond)];
  }

  /** `user_a` at 3 s then finds none of its rows left and is admitted. */
  lemma SharedSweepSecondCall()
    ensures Admit(RateLimit(1, 60 * NanosPerSecond), "user_a", 3 * NanosPerSecond, [Row("user_b", 2 * NanosPerSecond)], None).0 == Allowed
  {
    var b := Row("user_b", 2 * NanosPerSecond);
    UsersDistinct();
    assert [b][..0] == [];
    assert CountLive([b], "user_a", 3 * NanosPerSecond - 60 * NanosPerSecond) == 0;
  }

  /** The shared sweep uses the caller's window for every user's rows. A
      request by `user_b` at 2 s deletes `user_a`'s row from 0 s, although it
      is still inside `user_a`'s minute, and `user_a` is then admitted again
      at 3 s under a limit of one per minute. */
  lemma SharedSweepDropsLiveRow()
    ensures Decide(MixedWindows(), "user_b", 2 * NanosPerSecond, [Row("user_a", 0)], None) ==
              (Allowed, [Row("user_b", 2 * NanosPerSecond)])
    ensures !KeepsLiveRows(MixedWindows(), [Row("user_a", 0)], [Row("user_b", 2 * NanosPerSecond)], 2 * NanosPerSecond)
    ensures Decide(MixedWindows(), "user_a", 3 * NanosPerSecond, [Row("user_b", 2 * NanosPerSecond)], None).0 == Allowed
    ensures 0 >= 3 * NanosPerSecond - MixedWindows()["user_a"].duration
  {
    var a := Row("user_a", 0);
    var b := Row("user_b", 2 * NanosPerSecond);
    UsersDistinct();
    assert MixedWindows()["user_a"] == RateLimit(1, 60 * NanosPerSecond);
    assert MixedWindows()["user_b"] == RateLimit(1, NanosPerSecond);
    MixedWindowsConfigured("user_b", 2 * NanosPerSecond, [a], None);
    MixedWindowsConfigured("user_a", 3 * NanosPerSecond, [b], None);
    SharedSweepFirstCall();
    SharedSweepSecondCall();
    assert multiset([a])[a] == 1 && multiset([b])[a] == 0;
  }

  /** `user_b` at 2 s under the scoped sweep keeps `user_a`'s row. */
  lemma OwnSweepFirstCall()
    ensures AdmitOwnSweep(RateLimit(1, NanosPerSecond), "user_b", 2 * NanosPerSecond, [Row("user_a", 0)], None) ==
              (Allowed, [Row("user_a", 0), Row("user_b", 2 * NanosPerSecond)])
  {
    var a := Row("user_a", 0);
    var p := RateLimit(1, NanosPerSecond);
    UsersDistinct();
    var r := AdmitOwnSweep(p, "user_b", 2 * NanosPerSecond, [a], None);
    assert [a][..0] == [];
    assert SweepOwn([a], "user_b", NanosPerSecond) == [a];
    assert CountLive([a], "user_b", NanosPerSecond) == 0;
    assert r.0 == Verdict(p, 0, None) == Allowed;
    assert r.1 == [a, Row("user_b", 2 * NanosPerSecond)];
  }

  /** `user_a` at 3 s then still has its row from 0 s and is refused. */
  lemma OwnSweepSecondCall()
    ensures AdmitOwnSweep(RateLimit(1, 60 * NanosPerSecond), "user_a", 3 * NanosPerSecond,
              [Row("user_a", 0), Row("user_b", 2 * NanosPerSecond)], None).0 == Aborted(RateLimitExceeded)
  {
    var a := Row("user_a", 0);
    var b := Row("user_b", 2 * NanosPerSecond);
    UsersDistinct();
    var p := RateLimit(1, 60 * NanosPerSecond);
    var cutoff := 3 * NanosPerSecond - 60 * NanosPerSecond;
    assert [a, b][..1] == [a] && [a][..0] == [];
    assert CountLive([a], "user_a", cutoff) == 1;
    assert CountLive([a, b], "user_a", cutoff) == 1;
    assert AdmitOwnSweep(p, "user_a", 3 * NanosPerSecond, [a, b], None).0 == Verdict(p, 1, None);
  }

  /** With the scoped sweep the same two requests keep `user_a`'s row, and the
      second request of `user_a` within the minute is refused. */
  lemma OwnSweepRefusesSecondAdmission()
    ensures DecideOwnSweep(MixedWindows(), "user_b", 2 * NanosPerSecond, [Row("user_a", 0)], None) ==
              (Allowed, [Row("user_a", 0), Row("user_b", 2 * NanosPerSecond)])
    ensures DecideOwnSweep(MixedWindows(), "user_a", 3 * NanosPerSecond,
              [Row("user_a", 0), Row("user_b", 2 * NanosPerSecond)], None).0 == Aborted(RateLimitExceeded)
  {
    var a := Row("user_a", 0);
    var b := Row("user_b", 2 * NanosPerSecond);
    UsersDistinct();
    assert MixedWindows()["user_a"] == RateLimit(1, 60 * NanosPerSecond);
    assert MixedWindows()["user_b"] == RateLimit(1, NanosPerSecond);
    MixedWindowsConfigured("user_b", 2 * NanosPerSecond, [a], None);
    MixedWindowsConfigured("user_a", 3 * NanosPerSecond, [a, b], None);
    OwnSweepFirstCall();
    OwnSweepSecondCall();
  }
}

=== FILE: policy.dfy ===
/** The per-user rate-limit policy (`RateLimit` in both programs) and the way
    a configured number of seconds becomes a Go `time.Duration` and back. */
module Policy {

  /** Go's `time.Second`: one second in nanoseconds. */
  const NanosPerSecond: int := 1_000_000_000

  const MinInt64: int := -0x8000_0000_0000_0000
  const MaxInt64: int := 0x7FFF_FFFF_FFFF_FFFF
  const TwoTo64: int := 0x1_0000_0000_0000_0000

  /** The largest number of seconds whose `time.Duration` does not overflow. */
  const MaxSeconds: int := MaxInt64 / NanosPerSecond

  predicate IsInt64(x: int) {
    MinInt64 <= x <= MaxInt64
  }

  /** Two's-complement wrap-around of Go's 64-bit signed arithmetic. */
  function WrapInt64(x: int): (r: int)
    ensures IsInt64(r)
    ensures (r - x) % TwoTo64 == 0
    ensures IsInt64(x) ==> r == x
  {
    (x - MinInt64) % TwoTo64 + MinInt64
  }

  /** A configured policy: at most `limit` admissions per window of
      `duration` nanoseconds. Neither field is checked for sign by the
      programs, so neither is constrained here. */
  datatype RateLimit = RateLimit(limit: int, duration: int)

  /** `value.Duration *= time.Second`: the configured count of seconds,
      multiplied in 64-bit arithmetic. */
  function ToDuration(seconds: int): (d: int)
    requires IsInt64(seconds)
    ensures IsInt64(d)
    ensures (d - seconds * NanosPerSecond) % TwoTo64 == 0
    ensures -MaxSeconds <= seconds <= MaxSeconds ==> d == seconds * NanosPerSecond
  {
    WrapInt64(seconds * NanosPerSecond)
  }

  /** `int(d.Seconds())`: whole seconds of a duration, truncated toward zero
      as Go's float-to-int conversion does. */
  function DurationSeconds(d: int): (secs: int)
    ensures d >= 0 ==> 0 <= d - secs * NanosPerSecond < NanosPerSecond
    ensures d < 0 ==> 0 <= secs * NanosPerSecond - d < NanosPerSecond
  {
    if d >= 0 then d / NanosPerSecond else -((-d) / NanosPerSecond)
  }

  /** The policy map after start-up: every configured entry keeps its limit
      and has its duration converted from seconds to nanoseconds. */
  function LoadPolicies(config: map<string, RateLimit>): (policies: map<string, RateLimit>)
    requires forall u :: u in config ==> IsInt64(config[u].duration)
    ensures policies.Keys == config.Keys
    ensures forall u :: u in policies ==> policies[u].limit == config[u].limit
    ensures forall u :: u in policies ==> policies[u].duration == ToDuration(config[u].duration)
    ensures forall u :: u in policies && -MaxSeconds <= config[u].duration <= MaxSeconds ==>
              DurationSeconds(policies[u].duration) == config[u].duration
  {
    var policies := map u | u in config :: RateLimit(config[u].limit, ToDuration(config[u].duration));
    forall u | u in policies && -MaxSeconds <= config[u].duration <= MaxSeconds
      ensures DurationSeconds(policies[u].duration) == config[u].duration
    {
      SecondsRoundTrip(config[u].duration);
    }
    policies
  }

  /** Converting seconds to a duration and back, as the counter variant does
      when it sets an expiry, gives the configured seconds back whenever the
      multiplication does not overflow. */
  lemma SecondsRoundTrip(seconds: int)
    requires -MaxSeconds <= seconds <= MaxSeconds
    ensures DurationSeconds(ToDuration(seconds)) == seconds
  {
    var d := seconds * NanosPerSecond;
    if seconds >= 0 {
      assert 0 <= d <= MaxSeconds * NanosPerSecond <= MaxInt64;
      assert ToDuration(seconds) == d;
      assert d / NanosPerSecond == seconds;
    } else {
      assert MinInt64 <= -MaxSeconds * NanosPerSecond <= d < 0;
      assert ToDuration(seconds) == d;
      assert (-d) / NanosPerSecond == -seconds;
    }
  }

  /** A configuration of more than `MaxSeconds` seconds wraps around to a
      negative window. */
  lemma OverlongWindowWraps()
    ensures ToDuration(MaxSeconds + 1) < 0
  {
  }
}

=== FILE: redis_limiter.dfy ===
/** The counter-with-expiry variant: one counter per user in a key-value
    store, read with GET, raised with INCR, and given a time-to-live with
    EXPIRE when the value read was zero. */
module RedisLimiter {
  import opened Wrappers
  import opened Policy
  import opened Admission

  /** The value stored under a key: an integer counter and, if one was set,
      the instant (nanoseconds) after which the key no longer exists. */
  datatype Entry = Entry(count: int, expiresAt: Option<int>)

  /** The key space as the server holds it, expired keys included until
      they are read. */
  type Store = map<string, Entry>

  const KeyPrefix: string := "ratelimit:"

  /** The key a user's counter lives under. */
  function Key(user: string): (k: string)
    ensures |k| == |KeyPrefix| + |user|
    ensures k[..|KeyPrefix|] == KeyPrefix && k[|KeyPrefix|..] == user
  {
    KeyPrefix + user
  }

  /** The user a key belongs to, for keys of the limiter's shape. */
  function UserOfKey(k: string): Option<string> {
    if |KeyPrefix| <= |k| && k[..|KeyPrefix|] == KeyPrefix then Some(k[|KeyPrefix|..]) else None
  }

  /** Every user's key names that user back, and every limiter key is the
      key of the user it names. */
  lemma KeyRoundTrip(user: string, k: string)
    ensures UserOfKey(Key(user)) == Some(user)
    ensures UserOfKey(k) == Some(user) ==> Key(user) == k
  {
    if UserOfKey(k) == Some(user) {
      assert k == k[..|KeyPrefix|] + k[|KeyPrefix|..];
    }
  }

  /** Distinct users have distinct counters. */
  lemma KeyInjective(a: string, b: string)
    ensures Key(a) == Key(b) <==> a == b
  {
    KeyRoundTrip(a, Key(b));
  }

  /** Key `k` exists at `now`: it is stored and has no expiry or an expiry
      not yet passed (the server drops a key once the clock is past its
      expiry instant). */
  predicate Live(s: Store, k: string, now: int) {
    k in s && (s[k].expiresAt.None? || now <= s[k].expiresAt.value)
  }

  /** `GET k`: the stored counter, or no value for an absent or expired key. */
  function Get(s: Store, k: string, now: int): (v: Option<int>)
    ensures v.None? <==> k !in s || (s[k].expiresAt.Some? && s[k].expiresAt.value < now)
    ensures v.Some? ==> v.value == s[k].count
  {
    if Live(s, k, now) then Some(s[k].count) else None
  }

  /** `redis.Int(GET k)` with the no-value error read as zero. */
  function Count(s: Store, k: string, now: int): (c: int)
    ensures !Live(s, k, now) ==> c == 0
    ensures Live(s, k, now) ==> c == s[k].count
  {
    Get(s, k, now).GetOr(0)
  }

  /** `INCR k`: a live counter goes up by one and keeps its expiry; an absent
      or expired key is created at 1 with no expiry. No other key changes. */
  function Incr(s: Store, k: string, now: int): (r: Store)
    ensures k in r && r[k].count == Count(s, k, now) + 1
    ensures r[k].expiresAt == if Live(s, k, now) then s[k].expiresAt else None
    ensures Live(r, k, now)
    ensures r.Keys == s.Keys + {k}
    ensures forall j :: j in s && j != k ==> r[j] == s[j]
  {
    if Live(s, k, now) then s[k := Entry(s[k].count + 1, s[k].expiresAt)]
    else s[k := Entry(1, None)]
  }

  /** `EXPIRE k secs`: on a live key, a positive timeout sets the expiry
      `secs` seconds from now and a timeout of zero or less deletes the key;
      an absent or expired key is left as it is. No other key changes. */
  function Expire(s: Store, k: string, secs: int, now: int): (r: Store)
    ensures !Live(s, k, now) ==> r == s
    ensures Live(s, k, now) && secs <= 0 ==> k !in r
    ensures Live(s, k, now) && secs > 0 ==>
              k in r && r[k] == Entry(s[k].count, Some(now + secs * NanosPerSecond)) && Live(r, k, now)
    ensures r.Keys <= s.Keys
    ensures forall j :: j in s && j != k ==> j in r && r[j] == s[j]
  {
    if !Live(s, k, now) then s
    else if secs <= 0 then s - {k}
    else s[k := Entry(s[k].count, Some(now + secs * NanosPerSecond))]
  }

  /** The store calls of one request that can fail, in the order they run. */
  datatype Step = Connect | Read | Increment | SetExpiry {

    function Index(): nat {
      match this
      case Connect => 0
      case Read => 1
      case Increment => 2
      case SetExpiry => 3
    }

    /** The code a failure of this step is reported with. */
    function Code(): (c: ErrorCode)
      ensures c.IsStoreFailure()
    {
      match this
      case Connect => RedisConnectionFailed
      case Read => GetRateLimitCountingFailed
      case Increment => IncreaseRateLimitFailed
      case SetExpiry => SetRateLimitExpirationFailed
    }
  }

  /** Each failing step answers with a code of its own, so the response
      names the call that failed. */
  lemma CodeInjective(a: Step, b: Step)
    ensures a.Code() == b.Code() <==> a == b
  {
  }

  /** Step `s` ran without failing when the injected failure, if any, is a
      later step. */
  predicate Passes(fail: Option<Step>, s: Step) {
    fail.None? || fail.value.Index() > s.Index()
  }

  /** The store calls of one request, for a caller who passed the front
      checks with policy `p`: connect, GET at `readAt`, compare with the
      limit, INCR at `incrAt`, and EXPIRE at `expireAt` when the value read
      was zero. Each call is its own round trip to the server, so each has
      its own instant. `fail` names the call that fails if it is reached.
      Only the EXPIRE failure leaves a change behind: the increment before it
      is not undone. */
  function AdmitAt(p: RateLimit, user: string, readAt: int, incrAt: int, expireAt: int, s: Store, fail: Option<Step>): (r: (Outcome, Store))
    ensures var c := Count(s, Key(user), readAt);
            r.0 == Allowed <==> Passes(fail, Increment) && c < p.limit && (c == 0 ==> fail.None?)
    ensures r.0 == Aborted(RateLimitExceeded) <==> Passes(fail, Read) && Count(s, Key(user), readAt) >= p.limit
    ensures var c := Count(s, Key(user), readAt);
            r.0.Aborted? && r.0.code.IsStoreFailure() <==>
              fail.Some? && (Passes(fail, Read) ==> c < p.limit) && (fail == Some(SetExpiry) ==> c == 0)
    ensures r.0.Aborted? && r.0.code.IsStoreFailure() ==> r.0.code == fail.value.Code()
    ensures r.0.Aborted? ==> r.0.code == RateLimitExceeded || r.0.code.IsStoreFailure()
    ensures r.0.Aborted? && r.0.code != SetRateLimitExpirationFailed ==> r.1 == s
  {
    match fail
    case Some(Connect) => (Aborted(RedisConnectionFailed), s)
    case Some(Read) => (Aborted(GetRateLimitCountingFailed), s)
    case _ =>
      var key := Key(user);
      var count := Count(s, key, readAt);
      if count >= p.limit then (Aborted(RateLimitExceeded), s)
      else
        match fail
        case Some(Increment) => (Aborted(IncreaseRateLimitFailed), s)
        case _ =>
          var incremented := Incr(s, key, incrAt);
          if count == 0 then
            match fail
            case Some(SetExpiry) => (Aborted(SetRateLimitExpirationFailed), incremented)
            case _ => (Allowed, Expire(incremented, key, DurationSeconds(p.duration), expireAt))
          else (Allowed, incremented)
  }

  /** The store calls of one request with all three calls at the instant
      `now`: the decision the rest of the model reasons about. */
  function Admit(p: RateLimit, user: string, now: int, s: Store, fail: Option<Step>): (r: (Outcome, Store))
    ensures var c := Count(s, Key(user), now);
            r.0 == Allowed <==> Passes(fail, Increment) && c < p.limit && (c == 0 ==> fail.None?)
    ensures r.0 == Aborted(RateLimitExceeded) <==> Passes(fail, Read) && Count(s, Key(user), now) >= p.limit
    ensures var c := Count(s, Key(user), now);
            r.0.Aborted? && r.0.code.IsStoreFailure() <==>
              fail.Some? && (Passes(fail, Read) ==> c < p.limit) && (fail == Some(SetExpiry) ==> c == 0)
    ensures r.0.Aborted? && r.0.code.IsStoreFailure() ==> r.0.code == fail.value.Code()
    ensures r.0.Aborted? ==> r.0.code == RateLimitExceeded || r.0.code.IsStoreFailure()
    ensures r.0.Aborted? && r.0.code != SetRateLimitExpirationFailed ==> r.1 == s
    ensures r.0 == Aborted(SetRateLimitExpirationFailed) ==>
              && Count(s, Key(user), now) == 0 && Key(user) in r.1 && r.1[Key(user)].count == 1
              && (!Live(s, Key(user), now) ==> r.1[Key(user)].expiresAt.None?)
  {
    AdmitAt(p, user, now, now, now, s, fail)
  }

  /** What a request leaves under the caller's key when it gets past the
      limit check: INCR's result at `incrAt`, and, when the value read was
      zero and EXPIRE succeeds, that counter with an expiry `secs` seconds
      after `expireAt`, or no key when `secs` is at most 0. EXPIRE acts only
      while the raised counter is still live at `expireAt`, which always
      holds when INCR created the key. Every other key keeps its value. */
  lemma AdmitAtEntry(p: RateLimit, user: string, readAt: int, incrAt: int, expireAt: int, s: Store, fail: Option<Step>)
    requires var r := AdmitAt(p, user, readAt, incrAt, expireAt, s, fail);
             r.0 == Allowed || r.0 == Aborted(SetRateLimitExpirationFailed)
    ensures var k := Key(user);
            var c := Count(s, k, readAt);
            var secs := DurationSeconds(p.duration);
            var raised := Entry(Count(s, k, incrAt) + 1, if Live(s, k, incrAt) then s[k].expiresAt else None);
            var r := AdmitAt(p, user, readAt, incrAt, expireAt, s, fail);
            && (r.0 == Aborted(SetRateLimitExpirationFailed) || c != 0 ==> k in r.1 && r.1[k] == raised)
            && (r.0 == Allowed && c == 0 && secs > 0 && Live(Incr(s, k, incrAt), k, expireAt) ==>
                  k in r.1 && r.1[k] == Entry(raised.count, Some(expireAt + secs * NanosPerSecond)))
            && (r.0 == Allowed && c == 0 && secs <= 0 && Live(Incr(s, k, incrAt), k, expireAt) ==> k !in r.1)
            && (r.0 == Allowed && c == 0 && !Live(s, k, incrAt) ==> Live(Incr(s, k, incrAt), k, expireAt))
            && (forall j :: j in s && j != k ==> j in r.1 && r.1[j] == s[j])
            && r.1.Keys <= s.Keys + {k}
  {
    var k := Key(user);
    var inc := Incr(s, k, incrAt);
    var r := AdmitAt(p, user, readAt, incrAt, expireAt, s, fail);
    if r.0 == Allowed && Count(s, k, readAt) == 0 {
      assert r.1 == Expire(inc, k, DurationSeconds(p.duration), expireAt);
    } else {
      assert r.1 == inc;
    }
  }

  /** A counter that is live at GET but expires before INCR is recreated at
      one with no expiry, and EXPIRE is skipped because the value read was
      not zero: a counter without expiry arises with no store failure. */
  lemma ExpiryLapseLeavesNoTtl(p: RateLimit, user: string, readAt: int, incrAt: int, expireAt: int, s: Store)
    requires Key(user) in s && s[Key(user)].expiresAt.Some?
    requires readAt <= s[Key(user)].expiresAt.value < incrAt
    requires 0 < s[Key(user)].count < p.limit
    ensures AdmitAt(p, user, readAt, incrAt, expireAt, s, None) == (Allowed, s[Key(user) := Entry(1, None)])
  {
  }

  /** One request through the middleware: the front checks, then the store
      calls under the caller's policy. */
  function Decide(policies: map<string, RateLimit>, user: string, now: int, s: Store, fail: Option<Step>): (r: (Outcome, Store))
    ensures user == "" ==> r == (Aborted(UserIdRequired), s)
    ensures user != "" && user !in policies ==> r == (Aborted(NotConfigRateLimitForThisUser), s)
    ensures user != "" && user in policies ==> r == Admit(policies[user], user, now, s, fail)
  {
    match FrontCheck(policies, user)
    case Failure(e) => (Aborted(e), s)
    case Success(p) => Admit(p, user, now, s, fail)
  }

  /** A request touches no key but the caller's own: every other key is
      present afterwards exactly when it was before, with the same value. */
  lemma DecideFrame(policies: map<string, RateLimit>, user: string, now: int, s: Store, fail: Option<Step>, k: string)
    requires k != Key(user)
    ensures k in Decide(policies, user, now, s, fail).1 <==> k in s
    ensures k in s ==> Decide(policies, user, now, s, fail).1[k] == s[k]
  {
    var r := Decide(policies, user, now, s, fail);
    if r.0 == Allowed || r.0 == Aborted(SetRateLimitExpirationFailed) {
      assert user != "" && user in policies && r == Admit(policies[user], user, now, s, fail);
    }
  }

  /** What an admission leaves under the caller's key: the counter read plus
      one, with the expiry it had, or, when the value read was zero, with an
      expiry one window from now (a window under one second deletes the key
      instead). */
  lemma AdmittedEntry(p: RateLimit, user: string, now: int, s: Store, fail: Option<Step>)
    requires Admit(p, user, now, s, fail).0 == Allowed
    ensures var k := Key(user);
            var c := Count(s, k, now);
            var secs := DurationSeconds(p.duration);
            var after := Admit(p, user, now, s, fail).1;
            && (c != 0 ==> Live(s, k, now) && k in after && after[k] == Entry(c + 1, s[k].expiresAt))
            && (c == 0 && secs > 0 ==> k in after && after[k] == Entry(1, Some(now + secs * NanosPerSecond)))
            && (c == 0 && secs <= 0 ==> k !in after)
  {
    var k := Key(user);
    var c := Count(s, k, now);
    var inc := Incr(s, k, now);
    if c == 0 {
      assert Admit(p, user, now, s, fail).1 == Expire(inc, k, DurationSeconds(p.duration), now);
    } else {
      assert Admit(p, user, now, s, fail).1 == inc;
    }
  }

  /** Every stored counter is at least one, as INCR creates them at one and
      only raises them. */
  predicate WellFormed(s: Store) {
    forall k :: k in s ==> s[k].count >= 1
  }

  /** In a well-formed store a counter reads zero exactly when its key is
      absent or expired. */
  lemma ZeroReadIsAbsent(s: Store, k: string, now: int)
    requires WellFormed(s)
    ensures Count(s, k, now) == 0 <==> !Live(s, k, now)
  {
  }

  /** Every request keeps the store well-formed. */
  lemma DecidePreservesWellFormed(policies: map<string, RateLimit>, user: string, now: int, s: Store, fail: Option<Step>)
    requires WellFormed(s)
    ensures WellFormed(Decide(policies, user, now, s, fail).1)
  {
    var after := Decide(policies, user, now, s, fail).1;
    forall k | k in after
      ensures after[k].count >= 1
    {
      if k != Key(user) {
        DecideFrame(policies, user, now, s, fail, k);
      } else if user != "" && user in policies {
        var r := Admit(policies[user], user, now, s, fail);
        if r.0 == Allowed {
          AdmittedEntry(policies[user], user, now, s, fail);
        }
      }
    }
  }

  /** When EXPIRE fails, the increment stays and, in a well-formed store,
      the counter is left at one with no expiry. */
  lemma ExpiryFailureKeepsIncrement(policies: map<string, RateLimit>, user: string, now: int, s: Store)
    requires WellFormed(s)
    ensures var r := Decide(policies, user, now, s, Some(SetExpiry));
            r.0 == Aborted(SetRateLimitExpirationFailed) ==> Key(user) in r.1 && r.1[Key(user)] == Entry(1, None)
  {
    ZeroReadIsAbsent(s, Key(user), now);
  }

  /** Every configured user's live counter is at most their limit. */
  ghost predicate WithinLimits(policies: map<string, RateLimit>, s: Store, now: int) {
    forall u :: u in policies && Live(s, Key(u), now) ==> s[Key(u)].count <= policies[u].limit
  }

  /** A counter that is live later was live earlier with the same value, so
      the bound carries over as time passes. */
  lemma WithinLimitsLater(policies: map<string, RateLimit>, s: Store, now: int, later: int)
    requires now <= later
    requires WithinLimits(policies, s, now)
    ensures WithinLimits(policies, s, later)
  {
    forall u | u in policies && Live(s, Key(u), later)
      ensures s[Key(u)].count <= policies[u].limit
    {
      assert Live(s, Key(u), now);
    }
  }

  /** The caller's own counter stays within its limit across one request. */
  lemma AdmitKeepsOwnLimit(p: RateLimit, user: string, now: int, s: Store, fail: Option<Step>)
    requires Live(s, Key(user), now) ==> s[Key(user)].count <= p.limit
    ensures var after := Admit(p, user, now, s, fail).1;
            Live(after, Key(user), now) ==> after[Key(user)].count <= p.limit
  {
    var r := Admit(p, user, now, s, fail);
    if r.0 == Allowed {
      AdmittedEntry(p, user, now, s, fail);
    }
  }

  /** In sequential execution every request keeps every configured user's
      counter at or below that user's limit. */
  lemma DecidePreservesLimits(policies: map<string, RateLimit>, user: string, now: int, s: Store, fail: Option<Step>)
    requires WithinLimits(policies, s, now)
    ensures WithinLimits(policies, Decide(policies, user, now, s, fail).1, now)
  {
    var after := Decide(policies, user, now, s, fail).1;
    forall u | u in policies && Live(after, Key(u), now)
      ensures after[Key(u)].count <= policies[u].limit
    {
      if u == user {
        AdmitKeepsOwnLimit(policies[user], user, now, s, fail);
      } else {
        KeyInjective(u, user);
        DecideFrame(policies, user, now, s, fail, Key(u));
      }
    }
  }

  /** A key that is absent or has expired reads as zero without an error, so
      with no failure a configured user under a positive limit is admitted
      and starts a fresh window of one request ending one window from now. */
  lemma FreshWindow(policies: map<string, RateLimit>, user: string, now: int, s: Store)
    requires user != "" && user in policies && policies[user].limit > 0
    requires !Live(s, Key(user), now)
    requires DurationSeconds(policies[user].duration) > 0
    ensures var r := Decide(policies, user, now, s, None);
            && r.0 == Allowed
            && Key(user) in r.1
            && r.1[Key(user)] == Entry(1, Some(now + DurationSeconds(policies[user].duration) * NanosPerSecond))
  {
    AdmittedEntry(policies[user], user, now, s, None);
  }

  /** The window a TTL opens closes on time: once the expiry set by a fresh
      window has passed, the counter reads zero again. */
  lemma WindowCloses(policies: map<string, RateLimit>, user: string, now: int, s: Store, later: int)
    requires user != "" && user in policies && policies[user].limit > 0
    requires !Live(s, Key(user), now)
    requires DurationSeconds(policies[user].duration) > 0
    requires later > now + DurationSeconds(policies[user].duration) * NanosPerSecond
    ensures Count(Decide(policies, user, now, s, None).1, Key(user), later) == 0
  {
    FreshWindow(policies, user, now, s);
  }

  /** A window under one second truncates to an EXPIRE timeout of at most
      zero, which deletes the key the first request created: with no failure
      a caller under a positive limit is admitted on every request. */
  lemma SubSecondWindowNeverCounts(policies: map<string, RateLimit>, user: string, now: int, s: Store)
    requires user != "" && user in policies && policies[user].limit > 0
    requires DurationSeconds(policies[user].duration) <= 0
    requires !Live(s, Key(user), now)
    ensures var r := Decide(policies, user, now, s, None);
            r.0 == Allowed && Key(user) !in r.1
  {
    AdmittedEntry(policies[user], user, now, s, None);
  }

  /** A counter with no expiry at or above the limit refuses its user at
      every later instant and is never changed again. */
  lemma NoExpiryLocksOut(policies: map<string, RateLimit>, user: string, s: Store, now: int, fail: Option<Step>)
    requires user != "" && user in policies
    requires Key(user) in s && s[Key(user)].expiresAt.None?
    requires s[Key(user)].count >= policies[user].limit
    requires Passes(fail, Read)
    ensures Decide(policies, user, now, s, fail) == (Aborted(RateLimitExceeded), s)
  {
  }

  /** When EXPIRE fails on the first request of a window, the counter is
      left at one with no expiry. Under a limit of one the user is then
      refused at every later instant. */
  lemma ExpiryFailureLocksOut(user: string, seconds: int, now: int, later: int)
    requires user != "" && 0 < seconds <= MaxSeconds
    ensures var policies := map[user := RateLimit(1, ToDuration(seconds))];
            var first := Decide(policies, user, now, map[], Some(SetExpiry));
            && first == (Aborted(SetRateLimitExpirationFailed), map[Key(user) := Entry(1, None)])
            && Decide(policies, user, later, first.1, None) == (Aborted(RateLimitExceeded), first.1)
  {
    var policies := map[user := RateLimit(1, ToDuration(seconds))];
    var first := Decide(policies, user, now, map[], Some(SetExpiry));
    assert first.0 == Aborted(SetRateLimitExpirationFailed);
    assert first.1 == map[Key(user) := Entry(1, None)];
    NoExpiryLocksOut(policies, user, first.1, later, None);
  }

  /** One call by a configured user with no failure and a window of at least
      a second: admitted exactly when the counter read is under the limit,
      and an admission raises the counter read at the same instant by one. */
  lemma DecideOnce(policies: map<string, RateLimit>, user: string, now: int, s: Store)
    requires user != "" && user in policies
    ensures var c := Count(s, Key(user), now);
            Decide(policies, user, now, s, None).0 == (if c < policies[user].limit then Allowed else Aborted(RateLimitExceeded))
    ensures var c := Count(s, Key(user), now);
            var r := Decide(policies, user, now, s, None);
            DurationSeconds(policies[user].duration) > 0 ==>
              Count(r.1, Key(user), now) == c + (if r.0 == Allowed then 1 else 0)
  {
    var r := Decide(policies, user, now, s, None);
    if r.0 == Allowed {
      AdmittedEntry(policies[user], user, now, s, None);
    }
  }

  /** `n` requests by a configured `user` at the same instant, none hitting a
      store failure, with a window of at least a second. They are admitted
      while the counter is under the limit and refused with 429 from then
      on, and the counter ends at the limit or at `n` above where it began. */
  method Burst(policies: map<string, RateLimit>, user: string, now: int, s: Store, n: nat)
      returns (outcomes: seq<Outcome>, after: Store)
    requires user != "" && user in policies && DurationSeconds(policies[user].duration) > 0
    ensures |outcomes| == n
    ensures forall i :: 0 <= i < n ==>
              outcomes[i] == if Count(s, Key(user), now) + i < policies[user].limit
                             then Allowed else Aborted(RateLimitExceeded)
    ensures var c := Count(s, Key(user), now);
            Count(after, Key(user), now) == if c >= policies[user].limit then c
                                            else if c + n <= policies[user].limit then c + n
                                            else policies[user].limit
  {
    var limit := policies[user].limit;
    var c := Count(s, Key(user), now);
    outcomes, after := [], s;
    var k := 0;
    while k < n
      invariant k <= n && |outcomes| == k
      invariant forall i :: 0 <= i < k ==>
                  outcomes[i] == if c + i < limit then Allowed else Aborted(RateLimitExceeded)
      invariant c >= limit ==> Count(after, Key(user), now) == c
      invariant c < limit ==> Count(after, Key(user), now) == if c + k <= limit then c + k else limit
    {
      DecideOnce(policies, user, now, after);
      var r := Decide(policies, user, now, after, None);
      outcomes, after := outcomes + [r.0], r.1;
      k := k + 1;
    }
  }
}

=== FILE: scenarios.dfy ===
/** The request sequences both programs' unit tests walk through, stated on
    the models: `user_a` has a limit of five, starts with no record, sends
    six requests, and sees five 200s then a 429; `user_b` has no policy. */
module Scenarios {
  import opened Wrappers
  import opened Policy
  import opened Admission
  import DbLimiter
  import RedisLimiter

  /** Six requests by `user_a` against the table, after its rows were
      deleted, at one instant with no database failure. */
  method TableSixRequests(policies: map<string, RateLimit>, now: int, t: DbLimiter.Table)
      returns (statuses: seq<int>)
    requires "user_a" in policies && policies["user_a"].limit == 5 && policies["user_a"].duration >= 0
    requires DbLimiter.CountUser(t, "user_a") == 0
    ensures statuses == [200, 200, 200, 200, 200, 429]
  {
    DbLimiter.CountLiveAtMostCount(t, "user_a", now - policies["user_a"].duration);
    var outcomes, _ := DbLimiter.Burst(policies, "user_a", now, t, 6);
    statuses := [outcomes[0].Status(), outcomes[1].Status(), outcomes[2].Status(),
                 outcomes[3].Status(), outcomes[4].Status(), outcomes[5].Status()];
  }

  /** Six requests by `user_a` against the counter store, after its key was
      deleted, at one instant with no store failure, under a window of at
      least a second. */
  method CounterSixRequests(policies: map<string, RateLimit>, now: int, s: RedisLimiter.Store)
      returns (statuses: seq<int>)
    requires "user_a" in policies && policies["user_a"].limit == 5
    requires DurationSeconds(policies["user_a"].duration) > 0
    requires RedisLimiter.Key("user_a") !in s
    ensures statuses == [200, 200, 200, 200, 200, 429]
  {
    var outcomes, _ := RedisLimiter.Burst(policies, "user_a", now, s, 6);
    statuses := [outcomes[0].Status(), outcomes[1].Status(), outcomes[2].Status(),
                 outcomes[3].Status(), outcomes[4].Status(), outcomes[5].Status()];
  }

  /** A user with no policy gets 403 from both programs and neither store
      changes, whatever the store holds and whichever store call would
      fail. */
  lemma UnconfiguredUserRefused(policies: map<string, RateLimit>, now: int, t: DbLimiter.Table, s: RedisLimiter.Store,
                                dbFail: Option<DbLimiter.Step>, kvFail: Option<RedisLimiter.Step>)
    requires "user_b" !in policies
    ensures DbLimiter.Decide(policies, "user_b", now, t, dbFail).0.Status() == 403
    ensures DbLimiter.Decide(policies, "user_b", now, t, dbFail).1 == t
    ensures RedisLimiter.Decide(policies, "user_b", now, s, kvFail).0.Status() == 403
    ensures RedisLimiter.Decide(policies, "user_b", now, s, kvFail).1 == s
  {
  }
}

=== FILE: wrappers.dfy ===
/** The optional value and the success-or-error value both variants use. */
module Wrappers {

  /** A value that may be missing: a Redis key that is not there, a store
      step that does not fail. */
  datatype Option<+T> = None | Some(value: T) {

    /** The value held, falling back to `default` for `None`. */
    function GetOr(default: T): T {
      match this
      case Some(v) => v
      case None => default
    }
  }

  /** Either a value or the error that stopped its computation. */
  datatype Result<+R, +E> = Success(value: R) | Failure(error: E)
}
